=== FILE: README.md ===
# Auklet agent client core, modelled in Dafny

This project models the core of `auklet/base.py`, the client side of the
Auklet monitoring agent.

- `Client.produce` sends a telemetry record to Kafka on the topic bound to
  its channel (`monitoring`, `event` or `log`).
- When a send raises `KafkaError`, the record goes to a local spool file
  `tmp/local.txt`, one JSON line per record.
- When a send goes through, the spool is replayed. Every line is parsed and
  produced again. A record with a `stackTrace` key goes back on `event`;
  any other record goes back on `monitoring`. The file is then truncated at
  the position where reading it ended.

The model also covers the smaller pieces of the same file:

- the `Runnable` start/stop life cycle over a one-yield generator;
- the `deferral` context manager, which runs registered calls last in,
  first out;
- `frame_stack`;
- `build_event_data` and the `None` fallback of `get_device_ip`;
- `_build_url`;
- `get_abs_path`;
- the slice-and-join that formats the MAC string in `get_mac`.

The modules are:

- `Wrappers` (`wrappers.dfy`): `Option`, a value or Python's `None`.
- `Lines` (`lines.dfy`): the spool as text.
  - `SplitLines` follows Python 3 `str.splitlines`: every Unicode line
    boundary counts, and CR LF counts as one.
  - `JoinLines` writes each line followed by `"\n"`.
  - `Truncate` is `file.truncate(pos)`.
- `Records` (`records.dfy`): records are JSON objects. `json.dumps` and
  `json.loads` are kept abstract as a `Codec`. `Lawful` states what the
  agent relies on from them: a serialised record holds no line break, and
  parsing it gives the record back.
- `Delivery` (`delivery.dfy`): `produce`, `_write_to_local` and
  `_produce_from_local` as functions from an environment and a state to a
  new state and an outcome, plus the properties proved about them.
  - The environment holds the producer flag, the channel-to-topic map, an
    oracle giving the broker's answer to the n-th send, the codec, and
    whether the spool can be opened.
  - The state holds the spool file and the log of send attempts.
  - Replay re-enters `produce`. A `fuel` parameter stands for the Python
    recursion limit; running out of it raises `RecursionLimit`.
- `Base` (`client.dfy`): the `Client` class. It has the client's
  configuration, the spool file and the send log as fields. Its methods
  update these fields in place, with a loop over the spool lines. Each
  method is proved to have exactly the effect the `Delivery` function
  gives. The module also holds `build_event_data`, `get_device_ip` and the
  `producer_types` map.
- `Lifecycle` (`lifecycle.dfy`): `Runnable`, `deferral` and `frame_stack`.
- `Identity` (`identity.dfy`): `get_abs_path` and the MAC string format.

Where the code behaves in ways a reader might not expect, the model
follows the code:

- **The spool never empties.** `truncate()` with no argument cuts at the
  current position. After `read()` that position is the end of the file,
  so the spool is reset to exactly what was read.
  - A line that was there is never removed.
  - In a pass that completes, a line appended during the pass is cut off
    again, for example by a replayed send that failed. So a completed pass
    neither empties the spool nor loses a replayed record whose send
    failed: the record stays in the file. See `Delivery.ProduceFromLocal`
    and `Delivery.ReplayAllRejected`.
  - A pass that raises leaves before `truncate()` runs. Examples are a later
    line that does not parse, a `KeyError`, or the recursion limit. The
    copies that rejected replayed sends appended then stay in the file as
    duplicates (`Delivery.RaisingPassKeepsCopies`).
  - A spool line that does not parse therefore makes every pass raise
    (`Delivery.UnparsableSpoolRaises`). As long as that line stays in the
    spool, every later successful send raises to its caller, and each such
    pass may add more copies.
- **Replay does not settle.** Replay goes through `produce`, and a
  successful send replays the same unshrunk file again. With a spool whose
  first line parses and a broker that accepts everything, `produce` never
  returns normally: it ends in the recursion limit
  (`Delivery.ReplayNeverSettles`), unless the process runs out of file
  descriptors first (see "Left out"). When the first line does not parse,
  the parse error propagates instead.
- **The live send comes first.** A live send that succeeds is logged
  before the spooled records it then replays
  (`Delivery.AcceptedSendReplaysSpool`).
- **No producer means no action.** Without a producer, `produce` does
  nothing at all. The record is dropped, not spooled
  (`Delivery.NoProducerIsNoop`).

## Model

| member | source | states |
|---|---|---|
| `Lines.SplitLines` | auklet/base.py:122 | `splitlines()` gives no line that holds a line boundary, and gives no lines exactly for an empty file. |
| `Lines.Truncate` | auklet/base.py:129 | `truncate(pos)` leaves a file of exactly `pos` characters. Python counts bytes, but the source only cuts at the end of the text just read, where the two agree. It keeps the prefix when the file is longer and pads with NULs when it is shorter. |
| `Lines.SplitJoin` | auklet/base.py:112-122 | Lines without line boundaries, each written with `"\n"`, split back into exactly those lines. |
| `Lines.AppendReadsBack` | auklet/base.py:112-114 | Appending one line-free record line to a spool of whole lines reads back as the old lines, unchanged, followed by the new one. |
| `Records.SpooledRecordsReadBack` | auklet/base.py:110-124 | Under a lawful codec, records written as lines and read back with `splitlines` and `json.loads` are the records written, in order. |
| `Delivery.ReplayChannel` | auklet/base.py:125-128 | A replayed record goes to `event` exactly when it has a `stackTrace` key, and to `monitoring` otherwise. |
| `Delivery.WriteToLocal` | auklet/base.py:110-117 | An append never shortens the spool and sends nothing. It answers whether the file could be opened. |
| `Delivery.Produce` | auklet/base.py:146-153 | `produce` only ever extends the send log and the spool text, and never deletes the spool file. |
| `Delivery.ProduceFromLocal` | auklet/base.py:119-132 | A replay pass that returns normally leaves the spool exactly as it was read. Any pass only extends the log. |
| `Delivery.ReplayLines` | auklet/base.py:123-128 | The replay loop only extends the log and the spool. |
| `Delivery.ReplayVisitsInOrder` | auklet/base.py:123-128 | For any broker, a replay loop that finishes normally has attempted the record of every line in file order, each on the topic of its channel. Attempts made by nested passes may come in between. |
| `Delivery.RaisingPassKeepsCopies` | auklet/base.py:119-132 | When a replayed send is rejected and the next spool line does not parse, the pass raises before truncating. The spool keeps the re-spooled copy and the log holds the rejected attempt. |
| `Delivery.UnparsableLineRaises` | auklet/base.py:123-124 | The replay loop over lines, one of which does not parse, always raises, at that line at the latest. |
| `Delivery.UnparsableSpoolRaises` | auklet/base.py:119-132 | A replay pass over a spool holding a line that does not parse always raises, and truncates nothing. |
| `Delivery.NoProducerIsNoop` | auklet/base.py:146-147 | Without a producer, `produce` sends nothing, leaves the spool alone and returns. |
| `Delivery.UnknownChannelRaises` | auklet/base.py:149 | A channel with no topic raises `KeyError` before any send, with nothing changed. |
| `Delivery.RejectedSendSpools` | auklet/base.py:148-153 | A send that raises `KafkaError` is logged once on the channel's topic, and no replay happens. The spool gains exactly the serialised record plus `"\n"` at its end, or stays as it was when the file cannot be opened. |
| `Delivery.RejectedSendReadsBack` | auklet/base.py:110-114 | After a rejected send, the spool reads back as every earlier line, unchanged and in order, then the new record's line. |
| `Delivery.SpooledReadsBack` | auklet/base.py:112-122 | Round trip: records appended one after another read back as the earlier lines followed by the records' serialisations, oldest first. |
| `Delivery.RejectedReplayStep` | auklet/base.py:123-128 | One turn of the replay loop with a rejected send: the line's record is sent on its channel's topic, appended back to the spool, and the loop moves to the next line. |
| `Delivery.ReplayLinesAllRejected` | auklet/base.py:122-128 | With every send rejected, the loop sends the lines' records in file order, each on its channel's topic, and re-spools each one. |
| `Delivery.ReplayAllRejected` | auklet/base.py:119-132 | With every replayed send rejected, a pass sends the spooled records in file order on their topics. Truncation then leaves the spool exactly as read. |
| `Delivery.AcceptedSendReplaysSpool` | auklet/base.py:146-151 | When the broker accepts a live send and rejects every replayed send after it, the live send is logged first. Rejected attempts for the records spooled earlier follow, in spool order, on their channels' topics. The spool is unchanged. |
| `Delivery.AcceptedSendEmptySpool` | auklet/base.py:119-123 | With an empty, missing or unopenable spool, a successful send logs one accepted attempt and changes nothing else. |
| `Delivery.ReplayNeverSettles` | auklet/base.py:123-151 | With a spool whose first line parses and a broker that accepts everything, `produce` raises the recursion limit for every budget. |
| `Base.ProducerTypes` | auklet/base.py:87-91 | The topic map has exactly the keys `monitoring`, `event` and `log`, bound to the profiling, event and log topics. |
| `Base.GetDeviceIp` | auklet/base.py:248-253 | The public IP is None exactly when the IP service raised, and the address otherwise. |
| `Base.Client.constructor` | auklet/base.py:43-67 | The client keeps its configuration and topic map. It starts with the spool an earlier run left and no sends. A spool file that does not exist holds no text. |
| `Base.Client.BuildUrl` | auklet/base.py:78-79 | The URL is the base URL followed by the extension. |
| `Base.Client.BuildEventData` | auklet/base.py:134-144 | The result has the event's keys plus the seven enrichment keys. Every other key keeps its value, and each enrichment key holds its source value. |
| `Base.Client.WriteToLocal` | auklet/base.py:110-117 | The in-place append has exactly the effect of `Delivery.WriteToLocal`. |
| `Base.Client.ProduceFromLocal` | auklet/base.py:119-132 | The read / loop / truncate method has exactly the effect of `Delivery.ProduceFromLocal`. |
| `Base.Client.Produce` | auklet/base.py:146-153 | The method has exactly the effect of `Delivery.Produce`. |
| `Lifecycle.Next` | auklet/base.py:177-181 | `next(gen)` hands back the next yield. Otherwise it raises `StopIteration` or the body's exception, and the generator is finished afterwards. |
| `Lifecycle.Runnable.constructor` | auklet/base.py:162 | A new instance is not running. |
| `Lifecycle.Runnable.IsRunning` | auklet/base.py:164-166 | The instance is running exactly when `_running` holds a generator. |
| `Lifecycle.Runnable.Start` | auklet/base.py:168-181 | Starting a running instance raises `RuntimeError` and changes nothing. Otherwise `_running` is set before the generator is advanced, so a `TypeError` (no yield, or a yield with a value) leaves it running. |
| `Lifecycle.Runnable.Stop` | auklet/base.py:183-197 | Stopping always leaves the instance not running. It raises `RuntimeError` when not started, and `TypeError` when the generator yields again. |
| `Lifecycle.WithRunnable` | auklet/base.py:209-214 | When `__enter__` fails, the block raises `start`'s error and leaves the instance running, because neither the body nor `__exit__` runs. Otherwise `stop` runs after the body whether the body raised or not. The runnable raises no error exactly for a canonical `run()`, and each other error is determined. An error from `stop` replaces the body's exception; otherwise the body's exception leaves the block. |
| `Lifecycle.RunDeferred` | auklet/base.py:317-319 | The deferred calls run in reverse registration order, up to and including the first that raises, or all of them. |
| `Lifecycle.WithDeferral` | auklet/base.py:311-319 | The deferred calls run LIFO on both a normal and an exceptional exit, up to and including the first that raises. A raising deferred call replaces the body's exception. |
| `Lifecycle.FrameStack` | auklet/base.py:217-223 | The frames run from the outermost caller to the given frame, each preceded by its `f_back`. |
| `Identity.SplitFirst` | auklet/base.py:243 | `split(sep)[0]`: the prefix of the string before the first occurrence of `sep`, or the whole string when there is none. |
| `Identity.GetAbsPath` | auklet/base.py:241-245 | The result is the absolute path up to its first `.auklet`, or the whole path when there is none. |
| `Identity.Hex` | auklet/base.py:227 | The id as non-empty upper-case hex digits with no leading zero; `0` gives `"0"`. |
| `Identity.HexRoundTrip` | auklet/base.py:227 | The upper-case hex digits of the node id read back as the node id. |
| `Identity.NodeHexLength` | auklet/base.py:227 | A 48-bit node id has at most twelve hex digits. |
| `Identity.MacString` | auklet/base.py:228 | The MAC string is exactly the six two-digit slices at offsets 0, 2, ..., 10 joined by five dashes; a slice is short or empty when the id has fewer than twelve digits. With the dashes removed, the MAC string is the first twelve hex digits in order. Short slices lose no digit. |
| `Identity.MacStringInjective` | auklet/base.py:226-228 | Two 48-bit node ids with the same MAC string are equal, so the string identifies the node. |

## Left out

- `_get_kafka_brokers` and `_get_kafka_certs` (auklet/base.py:81-108) fetch configuration and certificates over HTTP. The model starts from the fetched `KafkaInfo`.
- Constructing `KafkaProducer` is the `producerBuilt` flag. `producer.send` is an oracle of whether the n-th send raises `KafkaError`. Kafka's asynchronous delivery is not modelled.
- `json.dumps` and `json.loads` are an abstract codec. The lemmas that read records back require the codec to be lawful.
- Python `int`, `float` and the other JSON scalars are collapsed into `JNum` over integers.
- `_create_file` and the directory it makes are not modelled. An `IOError` on opening the spool is the `diskOk` flag, plus the file being absent for a replay.
- A write that fails halfway is not modelled: an append either happens whole or not at all.
- `_write_to_local` and `_produce_from_local` return `None` on success and `False` on `IOError`. `produce` ignores that value. The model returns a boolean from the append and folds the replay's `False` into a normal return.
- The recursion limit is the `fuel` parameter. Its actual depth, and the Python frames that other callers have already used, are not modelled.
- `Event` and `SystemMetrics` are not part of this model. `build_event_data` takes the event dict and the metrics dict as inputs, together with the UUID, the UTC time and the IP lookup's outcome.
- `get_mac` hashes the MAC string with md5. The hash is not modelled. `uuid.getnode()` is the `node` parameter. `os.path.abspath` is a function parameter of `GetAbsPath`.
- `get_commit_hash` (auklet/base.py:232-238) reads a file and is not modelled. On `IOError` it returns `""`, which the constructor (auklet/base.py:53) cannot unpack into two values. The model takes the commit hash and the absolute path as constructor inputs.
- `setup_thread_excepthook` patches `threading` for threads and is not modelled. The codecs wrappers `b` and `u` are not modelled either.
- The `apikey` and `send_enabled` fields are not modelled, because nothing in the core reads them.
- Concurrent access to the spool is not modelled; the source has no locking.
- `Delivery.ReplayNeverSettles` assumes the recursion limit is reached before anything else fails. Every nested replay keeps the spool open, so a descriptor limit below the nesting depth would make an `open` fail first. That `OSError` is caught as `IOError`, and `produce` would then return normally. Running out of file descriptors is not modelled, since `diskOk` is fixed for the whole run.
- `Identity.Hex` follows Python 3. Under Python 2, `uuid.getnode()` usually returns a `long`, whose `hex()` ends in `L`, and that `L` then appears in the MAC string of an id with fewer than twelve digits.
- `Identity.MacStringInjective` is about the MAC string only. Whether its md5 hash also identifies the node is not modelled.
- `Lines.SplitLines` follows Python 3 `str.splitlines`. Under Python 2 the text is bytes, where only `\n` and `\r` count as line breaks.
- `Lifecycle.Next`: a generator abandoned without being closed (on garbage collection) is not modelled. Yielded values are integers or nothing.
- `Lifecycle.WithDeferral`: the deferred calls are reduced to whether they raise. Their arguments and their effects are not modelled.

=== FILE: client.dfy ===
/**
 * The `Client` object of the agent: the configuration it is built with,
 * the spool file and the sends it makes, its produce-or-spool methods
 * (each proved to have exactly the effect the Delivery functions give),
 * and the enrichment of an event record.
 */
module Base {
  import opened Lines
  import opened Records
  import opened Wrappers
  import Delivery

  /** What the device-config endpoint returns. */
  datatype KafkaInfo = KafkaInfo(brokers: seq<string>, profTopic: string, eventTopic: string, logTopic: string)

  /** `producer_types`: each logical channel bound to its topic. */
  function ProducerTypes(info: KafkaInfo): (m: map<string, string>)
    ensures m.Keys == {Delivery.Monitoring, Delivery.EventChannel, Delivery.LogChannel}
    ensures m[Delivery.Monitoring] == info.profTopic
    ensures m[Delivery.EventChannel] == info.eventTopic
    ensures m[Delivery.LogChannel] == info.logTopic
    ensures Delivery.Routes(m)
  {
    map[Delivery.Monitoring := info.profTopic,
        Delivery.EventChannel := info.eventTopic,
        Delivery.LogChannel := info.logTopic]
  }

  /** What the public-IP service answered: an address, or `IpifyException`. */
  datatype IpLookup = Found(ip: string) | IpifyFailed

  /** `get_device_ip`: the address, or None when the service failed. */
  function GetDeviceIp(lookup: IpLookup): (r: Json)
    ensures r == JNull <==> lookup.IpifyFailed?
    ensures lookup.Found? ==> r == JStr(lookup.ip)
  {
    match lookup
    case Found(ip) => JStr(ip)
    case IpifyFailed => JNull
  }

  /** A Python value that is a string or None. */
  function OptStr(o: Option<string>): Json {
    match o
    case Some(s) => JStr(s)
    case None => JNull
  }

  /** The keys `build_event_data` writes over the event dict. */
  const EnrichedKeys: set<string> :=
    {"application", "publicIP", "id", "timestamp", "systemMetrics", "macAddressHash", "commitHash"}

  class Client {
    const appId: Option<string>
    const baseUrl: string
    const macHash: Option<string>
    const commitHash: Option<string>
    const absPath: Option<string>
    const brokers: seq<string>
    const producerTypes: map<string, string>
    /** `producer is not None`: the Kafka producer could be constructed. */
    const producer: bool
    /** The broker's answer to the n-th send: true, or `KafkaError`. */
    const accept: nat -> bool
    const codec: Codec
    /** Whether the spool file can be opened (false: every open raises `IOError`). */
    const diskOk: bool

    /** The spool file `tmp/local.txt`: whether it exists, and its text. */
    var spoolPresent: bool
    var spool: string
    /** Every `producer.send` made, in order. */
    var sent: seq<Delivery.Attempt>

    function Env(): Delivery.Env {
      Delivery.Env(producer, producerTypes, accept, codec, diskOk)
    }

    function State(): Delivery.State
      reads this
    {
      Delivery.State(spoolPresent, spool, sent)
    }

    /** The client once its configuration is fetched: the spool file is what
        an earlier run left (it persists across restarts) and nothing has
        been sent. A spool file that does not exist holds no text. */
    constructor (info: KafkaInfo, producerBuilt: bool, accept: nat -> bool, codec: Codec, diskOk: bool,
                 appId: Option<string>, baseUrl: string, macHash: Option<string>,
                 commitHash: Option<string>, absPath: Option<string>,
                 spoolPresent: bool, spool: string)
      requires spoolPresent || spool == []
      ensures this.brokers == info.brokers && this.producerTypes == ProducerTypes(info)
      ensures Env() == Delivery.Env(producerBuilt, ProducerTypes(info), accept, codec, diskOk)
      ensures this.appId == appId && this.baseUrl == baseUrl && this.macHash == macHash
      ensures this.commitHash == commitHash && this.absPath == absPath
      ensures State() == Delivery.State(spoolPresent, spool, [])
    {
      this.brokers := info.brokers;
      this.producerTypes := ProducerTypes(info);
      this.producer := producerBuilt;
      this.accept := accept;
      this.codec := codec;
      this.diskOk := diskOk;
      this.appId := appId;
      this.baseUrl := baseUrl;
      this.macHash := macHash;
      this.commitHash := commitHash;
      this.absPath := absPath;
      this.spoolPresent := spoolPresent;
      this.spool := spool;
      this.sent := [];
    }

    /** `_build_url`: the base URL followed by the extension. */
    function BuildUrl(extension: string): (url: string)
      ensures |url| == |baseUrl| + |extension|
      ensures url[..|baseUrl|] == baseUrl && url[|baseUrl|..] == extension
    {
      baseUrl + extension
    }

    /** `build_event_data`: the event dict with the seven enrichment keys
        written over and every other key kept. The UUID, the UTC time, the
        system metrics and the IP service's answer come in as parameters. */
    function BuildEventData(event: Record, ip: IpLookup, id: string, timestamp: string, metrics: Record)
      : (r: Record)
      ensures r.Keys == event.Keys + EnrichedKeys
      ensures r - EnrichedKeys == event - EnrichedKeys
      ensures r["application"] == OptStr(appId) && r["publicIP"] == GetDeviceIp(ip)
      ensures r["id"] == JStr(id) && r["timestamp"] == JStr(timestamp)
      ensures r["systemMetrics"] == JObj(metrics)
      ensures r["macAddressHash"] == OptStr(macHash) && r["commitHash"] == OptStr(commitHash)
    {
      event["application" := OptStr(appId)]
           ["publicIP" := GetDeviceIp(ip)]
           ["id" := JStr(id)]
           ["timestamp" := JStr(timestamp)]
           ["systemMetrics" := JObj(metrics)]
           ["macAddressHash" := OptStr(macHash)]
           ["commitHash" := OptStr(commitHash)]
    }

    /** `_write_to_local`. */
    method WriteToLocal(data: Record) returns (written: bool)
      modifies this
      ensures (State(), written) == Delivery.WriteToLocal(Env(), old(State()), data)
    {
      if diskOk {
        spoolPresent := true;
        spool := spool + codec.serialise(data) + "\n";
        written := true;
      } else {
        written := false;
      }
    }

    /** `_produce_from_local`. */
    method ProduceFromLocal(fuel: nat) returns (out: Delivery.Outcome)
      modifies this
      ensures Delivery.Effect(State(), out) == Delivery.ProduceFromLocal(Env(), old(State()), fuel)
      decreases fuel, 1
    {
      if fuel == 0 {
        return Delivery.Raised(Delivery.RecursionLimit);
      }
      if !diskOk || !spoolPresent {
        return Delivery.Returned;
      }
      var read := spool;
      var lines := SplitLines(read);
      ghost var start := State();
      var i := 0;
      while i < |lines|
        invariant 0 <= i <= |lines|
        invariant Delivery.ReplayLines(Env(), start, lines, fuel)
               == Delivery.ReplayLines(Env(), State(), lines[i..], fuel)
      {
        match codec.parse(lines[i]) {
          case None =>
            return Delivery.Raised(Delivery.BadLine);
          case Some(loaded) =>
            var o := Produce(loaded, Delivery.ReplayChannel(loaded), fuel - 1);
            if o.Raised? {
              return o;
            }
        }
        i := i + 1;
      }
      spool := Truncate(spool, |read|);
      out := Delivery.Returned;
    }

    /** `produce(data, data_type)`. */
    method Produce(data: Record, dataType: string, fuel: nat) returns (out: Delivery.Outcome)
      modifies this
      ensures Delivery.Effect(State(), out) == Delivery.Produce(Env(), old(State()), data, dataType, fuel)
      decreases fuel, 2
    {
      if !producer {
        return Delivery.Returned;
      }
      if dataType !in producerTypes {
        return Delivery.Raised(Delivery.KeyError);
      }
      var ok := accept(|sent|);
      sent := sent + [Delivery.Attempt(producerTypes[dataType], data, ok)];
      if ok {
        out := ProduceFromLocal(fuel);
      } else {
        var _ := WriteToLocal(data);
        out := Delivery.Returned;
      }
    }
  }
}

=== FILE: delivery.dfy ===
/**
 * The produce-or-spool decision of `Client` and the replay of the local
 * spool file, as functions of an environment (what the client was built
 * with) and a state (the spool file and the log of send attempts).
 *
 * `produce` sends a record on the topic bound to its channel; a send that
 * raises `KafkaError` appends the record to the spool, and a send that does
 * not raise replays the spool: every line is parsed and produced again,
 * and the file is then truncated at the position where its reading ended.
 * Replay thus re-enters `produce`, which on success replays again over the
 * same file; the `fuel` parameter is the nesting left before Python's
 * recursion limit, and running out of it raises `RecursionLimit`.
 */
module Delivery {
  import opened Lines
  import opened Records
  import opened Wrappers

  /** One call of `producer.send(topic, value=record)`, and whether it went
      through (`accepted`) or raised `KafkaError`. */
  datatype Attempt = Attempt(topic: string, record: Record, accepted: bool)

  /** Exceptions that escape `produce`: a channel missing from the topic
      map, a spool line that is not a JSON object, and the recursion limit. */
  datatype Exc = KeyError | BadLine | RecursionLimit

  datatype Outcome = Returned | Raised(exc: Exc)

  /** The spool file (whether it exists, and its characters) and every send
      attempted so far. */
  datatype State = State(present: bool, content: string, log: seq<Attempt>)

  /** What the client is built with: whether a producer was constructed, the
      channel-to-topic map, the broker's answer to the n-th send attempt,
      the record codec, and whether the spool file can be opened at all. */
  datatype Env = Env(
    producer: bool,
    topics: map<string, string>,
    accept: nat -> bool,
    codec: Codec,
    diskOk: bool)

  datatype Effect = Effect(state: State, outcome: Outcome)

  const Monitoring: string := "monitoring"
  const EventChannel: string := "event"
  const LogChannel: string := "log"
  const StackTraceKey: string := "stackTrace"

  /** The channel a replayed record goes back to: `event` when it carries a
      stack trace, `monitoring` otherwise. */
  function ReplayChannel(rec: Record): (ch: string)
    ensures ch == EventChannel <==> StackTraceKey in rec
    ensures ch == EventChannel || ch == Monitoring
  {
    if StackTraceKey in rec then EventChannel else Monitoring
  }

  /** Nothing is taken back: the log and the spool only get longer, and a
      spool file once created stays. */
  predicate Grows(s: State, t: State) {
    s.log <= t.log && s.content <= t.content && (s.present ==> t.present)
  }

  /** `_write_to_local`: append the serialised record and a newline,
      creating the file; an `IOError` leaves the file as it was and answers
      false. */
  function WriteToLocal(e: Env, s: State, data: Record): (r: (State, bool))
    ensures Grows(s, r.0) && r.0.log == s.log
    ensures r.1 == e.diskOk
  {
    if e.diskOk then
      (s.(present := true, content := s.content + e.codec.serialise(data) + "\n"), true)
    else
      (s, false)
  }

  /** `produce(data, data_type)`. */
  function Produce(e: Env, s: State, data: Record, channel: string, fuel: nat): (r: Effect)
    ensures Grows(s, r.state)
    decreases fuel, 2, 0
  {
    if !e.producer then Effect(s, Returned)
    else if channel !in e.topics then Effect(s, Raised(KeyError))
    else
      var ok := e.accept(|s.log|);
      var sent := s.(log := s.log + [Attempt(e.topics[channel], data, ok)]);
      if ok then ProduceFromLocal(e, sent, fuel)
      else Effect(WriteToLocal(e, sent, data).0, Returned)
  }

  /** `_produce_from_local`: read the whole spool, produce every line again,
      then truncate at the read position. When it returns normally the
      spool holds exactly what was read: no line that was there is removed
      and every line appended during the pass is cut off again. */
  function ProduceFromLocal(e: Env, s: State, fuel: nat): (r: Effect)
    ensures Grows(s, r.state)
    ensures r.outcome == Returned ==> r.state.content == s.content && r.state.present == s.present
    decreases fuel, 1, 0
  {
    if fuel == 0 then Effect(s, Raised(RecursionLimit))
    else if !e.diskOk || !s.present then Effect(s, Returned)
    else
      var read := s.content;
      var pass := ReplayLines(e, s, SplitLines(read), fuel);
      if pass.outcome.Raised? then pass
      else Effect(pass.state.(content := Truncate(pass.state.content, |read|)), Returned)
  }

  /** The `for line in lines` loop of `_produce_from_local`. */
  function ReplayLines(e: Env, s: State, lines: seq<string>, fuel: nat): (r: Effect)
    requires fuel > 0
    ensures Grows(s, r.state)
    decreases fuel, 0, |lines|
  {
    if lines == [] then Effect(s, Returned)
    else
      match e.codec.parse(lines[0])
      case None => Effect(s, Raised(BadLine))
      case Some(rec) =>
        var one := Produce(e, s, rec, ReplayChannel(rec), fuel - 1);
        if one.outcome.Raised? then one
        else ReplayLines(e, one.state, lines[1..], fuel)
  }

  // ---------------------------------------------------------------------
  // Properties of produce and replay

  /** Both replay channels are bound to a topic. */
  predicate Routes(topics: map<string, string>) {
    Monitoring in topics && EventChannel in topics
  }

  /** The broker rejects every send from the n-th on. */
  ghost predicate RejectsFrom(e: Env, n: nat) {
    forall k: nat :: n <= k ==> !e.accept(k)
  }

  /** The broker accepts every send. */
  ghost predicate AcceptsAll(e: Env) {
    forall k: nat :: e.accept(k)
  }

  /** The rejected sends a replay of `recs` makes, in order, each on the
      topic of the record's channel. */
  function Routed(topics: map<string, string>, recs: seq<Record>): (r: seq<Attempt>)
    requires Routes(topics)
    ensures |r| == |recs|
    ensures forall i :: 0 <= i < |recs| ==>
      r[i] == Attempt(topics[ReplayChannel(recs[i])], recs[i], false)
  {
    if recs == [] then [] else [Attempt(topics[ReplayChannel(recs[0])], recs[0], false)] + Routed(topics, recs[1..])
  }

  /** Without a producer, `produce` sends nothing and leaves the spool alone. */
  lemma NoProducerIsNoop(e: Env, s: State, data: Record, channel: string, fuel: nat)
    requires !e.producer
    ensures Produce(e, s, data, channel, fuel) == Effect(s, Returned)
  {
  }

  /** A channel with no topic raises `KeyError` before anything is sent. */
  lemma UnknownChannelRaises(e: Env, s: State, data: Record, channel: string, fuel: nat)
    requires e.producer && channel !in e.topics
    ensures Produce(e, s, data, channel, fuel) == Effect(s, Raised(KeyError))
  {
  }

  /** A send that raises `KafkaError` appends exactly one line, the
      serialised record and a newline, to the end of the spool (or drops the
      record when the file cannot be opened), and does not replay. */
  lemma RejectedSendSpools(e: Env, s: State, data: Record, channel: string, fuel: nat)
    requires e.producer && channel in e.topics && !e.accept(|s.log|)
    ensures Produce(e, s, data, channel, fuel) == Effect(
      State(s.present || e.diskOk,
            if e.diskOk then s.content + e.codec.serialise(data) + "\n" else s.content,
            s.log + [Attempt(e.topics[channel], data, false)]),
      Returned)
  {
  }

  /** Read back, the spool after a rejected send holds the lines it held
      before, unchanged and in order, followed by the new record's line. */
  lemma RejectedSendReadsBack(e: Env, s: State, ls: seq<string>, data: Record, channel: string, fuel: nat)
    requires e.producer && channel in e.topics && !e.accept(|s.log|) && e.diskOk
    requires s.content == JoinLines(ls) && AllLineFree(ls) && LineFree(e.codec.serialise(data))
    ensures SplitLines(Produce(e, s, data, channel, fuel).state.content) == ls + [e.codec.serialise(data)]
  {
    AppendReadsBack(ls, e.codec.serialise(data));
  }

  /** The spool after `recs` were written one after another. */
  function Spooled(e: Env, s: State, recs: seq<Record>): (t: State)
    ensures Grows(s, t)
    decreases |recs|
  {
    if recs == [] then s
    else Spooled(e, WriteToLocal(e, s, recs[0]).0, recs[1..])
  }

  /** Writing records one after another appends their lines in order. */
  lemma {:induction false} SpooledContent(e: Env, s: State, recs: seq<Record>)
    requires e.diskOk
    ensures Spooled(e, s, recs).content == s.content + JoinLines(Serialised(e.codec, recs))
    decreases |recs|
  {
    if recs != [] {
      var s1 := WriteToLocal(e, s, recs[0]).0;
      SpooledContent(e, s1, recs[1..]);
      assert Serialised(e.codec, recs)[1..] == Serialised(e.codec, recs[1..]);
    }
  }

  /** Round trip: records appended to a spool of whole lines read back as
      the lines that were there followed by the records' serialisations,
      oldest first. */
  lemma SpooledReadsBack(e: Env, s: State, ls: seq<string>, recs: seq<Record>)
    requires e.diskOk && Lawful(e.codec)
    requires s.content == JoinLines(ls) && AllLineFree(ls)
    ensures SplitLines(Spooled(e, s, recs).content) == ls + Serialised(e.codec, recs)
  {
    SpooledContent(e, s, recs);
    SpooledRecordsReadBack(e.codec, recs);
    JoinConcat(ls, Serialised(e.codec, recs));
    AllLineFreeConcat(ls, Serialised(e.codec, recs));
    SplitJoin(ls + Serialised(e.codec, recs));
  }

  /** One turn of the replay loop when the broker rejects the send: the
      line's record is re-spooled and the loop goes on with the next line. */
  lemma RejectedReplayStep(e: Env, s: State, lines: seq<string>, fuel: nat)
    requires fuel > 0 && e.producer && e.diskOk && Routes(e.topics)
    requires lines != [] && e.codec.parse(lines[0]).Some? && !e.accept(|s.log|)
    ensures var rec := e.codec.parse(lines[0]).value;
      ReplayLines(e, s, lines, fuel) == ReplayLines(e,
        State(true, s.content + e.codec.serialise(rec) + "\n",
              s.log + [Attempt(e.topics[ReplayChannel(rec)], rec, false)]),
        lines[1..], fuel)
  {
    var rec := e.codec.parse(lines[0]).value;
    RejectedSendSpools(e, s, rec, ReplayChannel(rec), fuel - 1);
  }

  lemma ParsedCons(c: Codec, lines: seq<string>)
    requires lines != [] && AllParse(c, lines)
    ensures AllParse(c, lines[1..])
    ensures Parsed(c, lines) == [c.parse(lines[0]).value] + Parsed(c, lines[1..])
  {
    forall i | 0 <= i < |lines[1..]| ensures c.parse(lines[1..][i]).Some? {
      assert lines[1..][i] == lines[i + 1];
    }
  }

  lemma SpoolAndLogCons(e: Env, rec: Record, rest: seq<Record>)
    requires Routes(e.topics)
    ensures JoinLines(Serialised(e.codec, [rec] + rest))
      == e.codec.serialise(rec) + "\n" + JoinLines(Serialised(e.codec, rest))
    ensures Routed(e.topics, [rec] + rest)
      == [Attempt(e.topics[ReplayChannel(rec)], rec, false)] + Routed(e.topics, rest)
  {
    assert ([rec] + rest)[1..] == rest;
  }

  /** With every send rejected, the replay loop sends the records of its
      lines in file order, each on the topic of its channel, and appends
      each one back to the spool. */
  lemma {:induction false} ReplayLinesAllRejected(e: Env, s: State, lines: seq<string>, fuel: nat)
    requires fuel > 0 && e.producer && e.diskOk && s.present && Routes(e.topics)
    requires RejectsFrom(e, |s.log|) && AllParse(e.codec, lines)
    ensures ReplayLines(e, s, lines, fuel) == Effect(
      State(true,
            s.content + JoinLines(Serialised(e.codec, Parsed(e.codec, lines))),
            s.log + Routed(e.topics, Parsed(e.codec, lines))),
      Returned)
    decreases |lines|
  {
    if lines == [] {
      assert Parsed(e.codec, lines) == [];
    } else {
      var rec := e.codec.parse(lines[0]).value;
      var a := Attempt(e.topics[ReplayChannel(rec)], rec, false);
      var l := e.codec.serialise(rec);
      var s1 := State(true, s.content + l + "\n", s.log + [a]);
      var rest := Parsed(e.codec, lines[1..]);
      ParsedCons(e.codec, lines);
      SpoolAndLogCons(e, rec, rest);
      calc {
        ReplayLines(e, s, lines, fuel);
        { RejectedReplayStep(e, s, lines, fuel); }
        ReplayLines(e, s1, lines[1..], fuel);
        { ReplayLinesAllRejected(e, s1, lines[1..], fuel); }
        Effect(State(true, s1.content + JoinLines(Serialised(e.codec, rest)),
                     s1.log + Routed(e.topics, rest)), Returned);
        { assert s1.content + JoinLines(Serialised(e.codec, rest))
              == s.content + (l + "\n" + JoinLines(Serialised(e.codec, rest)));
          assert s1.log + Routed(e.topics, rest) == s.log + ([a] + Routed(e.topics, rest)); }
        Effect(State(true, s.content + JoinLines(Serialised(e.codec, [rec] + rest)),
                     s.log + Routed(e.topics, [rec] + rest)), Returned);
      }
    }
  }

  /** A replay pass while the broker rejects everything: the spooled records
      are sent in file order on their channels' topics, and the spool ends
      exactly as it was read (the re-spooled copies are truncated away). */
  lemma ReplayAllRejected(e: Env, s: State, fuel: nat)
    requires fuel > 0 && e.producer && e.diskOk && s.present && Routes(e.topics)
    requires RejectsFrom(e, |s.log|) && AllParse(e.codec, SplitLines(s.content))
    ensures ProduceFromLocal(e, s, fuel) ==
      Effect(s.(log := s.log + Routed(e.topics, Parsed(e.codec, SplitLines(s.content)))), Returned)
  {
    ReplayLinesAllRejected(e, s, SplitLines(s.content), fuel);
  }

  /** End to end, when the broker accepts a live send and rejects every
      replayed send after it: the records spooled earlier are attempted,
      and rejected, after the live send, in the order they were spooled and
      each on the topic of its shape (`event` with a stack trace,
      `monitoring` without); the spool is left as it was. */
  lemma AcceptedSendReplaysSpool(
    e: Env, s: State, recs: seq<Record>, data: Record, channel: string, fuel: nat)
    requires fuel > 0 && e.producer && e.diskOk && s.present && Routes(e.topics) && channel in e.topics
    requires Lawful(e.codec) && s.content == JoinLines(Serialised(e.codec, recs))
    requires e.accept(|s.log|) && RejectsFrom(e, |s.log| + 1)
    ensures Produce(e, s, data, channel, fuel) == Effect(
      s.(log := s.log + [Attempt(e.topics[channel], data, true)] + Routed(e.topics, recs)),
      Returned)
  {
    SpooledRecordsReadBack(e.codec, recs);
    var sent := s.(log := s.log + [Attempt(e.topics[channel], data, true)]);
    ReplayAllRejected(e, sent, fuel);
  }

  /** A live send with an empty or unreadable spool: one accepted attempt,
      the spool untouched. */
  lemma AcceptedSendEmptySpool(e: Env, s: State, data: Record, channel: string, fuel: nat)
    requires fuel > 0 && e.producer && channel in e.topics && e.accept(|s.log|)
    requires s.content == [] || !s.present || !e.diskOk
    ensures Produce(e, s, data, channel, fuel) ==
      Effect(s.(log := s.log + [Attempt(e.topics[channel], data, true)]), Returned)
  {
    var sent := s.(log := s.log + [Attempt(e.topics[channel], data, true)]);
    assert Produce(e, s, data, channel, fuel) == ProduceFromLocal(e, sent, fuel);
    if e.diskOk && s.present {
      assert SplitLines(sent.content) == [];
      assert ReplayLines(e, sent, [], fuel) == Effect(sent, Returned);
    }
  }

  /** Replay re-enters itself: with a spool whose first line parses and a
      broker that accepts every send, each live send replays that line, whose
      send replays it again over the same unshrunk file, so `produce` never
      returns normally; it ends in the recursion limit whatever the budget. */
  lemma {:induction false} ReplayNeverSettles(e: Env, s: State, data: Record, channel: string, fuel: nat)
    requires e.producer && e.diskOk && s.present && Routes(e.topics) && channel in e.topics
    requires AcceptsAll(e)
    requires SplitLines(s.content) != [] && e.codec.parse(SplitLines(s.content)[0]).Some?
    ensures Produce(e, s, data, channel, fuel).outcome == Raised(RecursionLimit)
    decreases fuel
  {
    assert e.accept(|s.log|);
    var sent := s.(log := s.log + [Attempt(e.topics[channel], data, true)]);
    assert Produce(e, s, data, channel, fuel) == ProduceFromLocal(e, sent, fuel);
    if fuel > 0 {
      var lines := SplitLines(sent.content);
      var rec := e.codec.parse(lines[0]).value;
      ReplayNeverSettles(e, sent, rec, ReplayChannel(rec), fuel - 1);
      var one := Produce(e, sent, rec, ReplayChannel(rec), fuel - 1);
      assert ReplayLines(e, sent, lines, fuel) == one;
    }
  }

  // ---------------------------------------------------------------------
  // File order for any broker

  /** `recs` are attempted in `log` in order, each on the topic of its
      channel: the first at some position, the rest after it. Other
      attempts (live sends of nested passes) may come in between. */
  ghost predicate VisitsInOrder(log: seq<Attempt>, topics: map<string, string>, recs: seq<Record>)
    requires Routes(topics)
    decreases |recs|
  {
    recs == [] ||
    exists k :: 0 <= k < |log| && log[k].topic == topics[ReplayChannel(recs[0])] && log[k].record == recs[0]
      && VisitsInOrder(log[k + 1..], topics, recs[1..])
  }

  /** Attempts made before do not disturb an ordered visit. */
  lemma VisitsAfter(a: seq<Attempt>, b: seq<Attempt>, topics: map<string, string>, recs: seq<Record>)
    requires Routes(topics) && VisitsInOrder(b, topics, recs)
    ensures VisitsInOrder(a + b, topics, recs)
  {
    if recs != [] {
      var k :| 0 <= k < |b| && b[k].topic == topics[ReplayChannel(recs[0])] && b[k].record == recs[0]
        && VisitsInOrder(b[k + 1..], topics, recs[1..]);
      assert (a + b)[|a| + k] == b[k];
      assert (a + b)[|a| + k + 1..] == b[k + 1..];
    }
  }

  /** The first thing `produce` does with a producer and a known channel is
      one attempt of the record on the channel's topic. */
  lemma ProduceAttemptsFirst(e: Env, s: State, data: Record, channel: string, fuel: nat)
    requires e.producer && channel in e.topics
    ensures var t := Produce(e, s, data, channel, fuel).state;
      |t.log| > |s.log| && t.log[|s.log|] == Attempt(e.topics[channel], data, e.accept(|s.log|))
  {
    var sent := s.(log := s.log + [Attempt(e.topics[channel], data, e.accept(|s.log|))]);
    assert Grows(sent, Produce(e, s, data, channel, fuel).state);
  }

  /** An attempt of the first record, then anything, then an ordered visit
      of the rest, is an ordered visit of them all. */
  lemma VisitsCons(x: Attempt, mid: seq<Attempt>, tail: seq<Attempt>, topics: map<string, string>, recs: seq<Record>)
    requires Routes(topics) && recs != []
    requires x.topic == topics[ReplayChannel(recs[0])] && x.record == recs[0]
    requires VisitsInOrder(tail, topics, recs[1..])
    ensures VisitsInOrder([x] + mid + tail, topics, recs)
  {
    VisitsAfter(mid, tail, topics, recs[1..]);
    var l := [x] + mid + tail;
    assert l[0] == x && l[1..] == mid + tail;
  }

  /** A log that extends `pre`, which extends a log of length `i` by one
      more entry, splits at `i`: that entry, the rest of `pre`, and what
      came after `pre`. */
  lemma SplitLog(log: seq<Attempt>, pre: seq<Attempt>, i: nat)
    requires i < |pre| && pre <= log
    ensures log[i..] == [pre[i]] + pre[i + 1..] + log[|pre|..]
  {
    assert log[i..] == log[i..|pre|] + log[|pre|..];
    assert log[i..|pre|] == pre[i..] == [pre[i]] + pre[i + 1..];
  }

  /** Whatever the broker answers, a replay loop that finishes normally has
      attempted the record of every line, in file order, each on the topic
      of its channel (`event` with a stack trace, `monitoring` without). */
  lemma {:induction false} ReplayVisitsInOrder(e: Env, s: State, lines: seq<string>, fuel: nat)
    requires fuel > 0 && e.producer && Routes(e.topics) && AllParse(e.codec, lines)
    ensures var r := ReplayLines(e, s, lines, fuel);
      r.outcome == Returned ==> VisitsInOrder(r.state.log[|s.log|..], e.topics, Parsed(e.codec, lines))
    decreases |lines|
  {
    var r := ReplayLines(e, s, lines, fuel);
    if lines != [] && r.outcome == Returned {
      var rec := e.codec.parse(lines[0]).value;
      var one := Produce(e, s, rec, ReplayChannel(rec), fuel - 1);
      assert r == ReplayLines(e, one.state, lines[1..], fuel);
      ProduceAttemptsFirst(e, s, rec, ReplayChannel(rec), fuel - 1);
      ParsedCons(e.codec, lines);
      ReplayVisitsInOrder(e, one.state, lines[1..], fuel);
      SplitLog(r.state.log, one.state.log, |s.log|);
      VisitsCons(one.state.log[|s.log|], one.state.log[|s.log| + 1..], r.state.log[|one.state.log|..],
                 e.topics, Parsed(e.codec, lines));
    }
  }

  // ---------------------------------------------------------------------
  // Passes that raise

  /** A pass that raises leaves before `truncate()`: a record re-spooled by
      a rejected replayed send stays in the file when a later line does not
      parse. */
  lemma RaisingPassKeepsCopies(e: Env, s: State, lines: seq<string>, fuel: nat)
    requires fuel > 0 && e.producer && e.diskOk && s.present && Routes(e.topics)
    requires SplitLines(s.content) == lines && |lines| >= 2
    requires e.codec.parse(lines[0]).Some? && e.codec.parse(lines[1]).None? && !e.accept(|s.log|)
    ensures var rec := e.codec.parse(lines[0]).value;
      ProduceFromLocal(e, s, fuel) == Effect(
        State(true, s.content + e.codec.serialise(rec) + "\n",
              s.log + [Attempt(e.topics[ReplayChannel(rec)], rec, false)]),
        Raised(BadLine))
  {
    RejectedReplayStep(e, s, lines, fuel);
  }

  /** The replay loop never finishes normally over lines one of which does
      not parse: it raises at that line at the latest. */
  lemma {:induction false} UnparsableLineRaises(e: Env, s: State, lines: seq<string>, fuel: nat)
    requires fuel > 0
    requires exists i :: 0 <= i < |lines| && e.codec.parse(lines[i]).None?
    ensures ReplayLines(e, s, lines, fuel).outcome.Raised?
    decreases |lines|
  {
    if e.codec.parse(lines[0]).Some? {
      var rec := e.codec.parse(lines[0]).value;
      var one := Produce(e, s, rec, ReplayChannel(rec), fuel - 1);
      if one.outcome == Returned {
        var i :| 0 <= i < |lines| && e.codec.parse(lines[i]).None?;
        assert lines[1..][i - 1] == lines[i];
        UnparsableLineRaises(e, one.state, lines[1..], fuel);
      }
    }
  }

  /** So a replay pass over a spool holding a line that does not parse
      always raises, and truncates nothing. */
  lemma UnparsableSpoolRaises(e: Env, s: State, fuel: nat)
    requires fuel > 0 && e.diskOk && s.present
    requires exists i :: 0 <= i < |SplitLines(s.content)| && e.codec.parse(SplitLines(s.content)[i]).None?
    ensures ProduceFromLocal(e, s, fuel).outcome.Raised?
    ensures s.content <= ProduceFromLocal(e, s, fuel).state.content
  {
    UnparsableLineRaises(e, s, SplitLines(s.content), fuel);
  }
}

=== FILE: identity.dfy ===
/**
 * Device identity strings: the install path cut before `.auklet`
 * (`get_abs_path`), and the MAC string that `get_mac` hashes: the node id
 * in upper-case hexadecimal, cut into two-character slices at offsets
 * 0, 2, ..., 10 joined with '-'. `hex()` drops leading zeros, so a node id
 * with fewer than twelve digits gives short slices; the lemmas show that no
 * two node ids still give the same string.
 */
module Identity {

  // ---------------------------------------------------------------------
  // get_abs_path

  /** `sep` occurs in `s` starting at index `i`. */
  predicate OccursAt(s: string, sep: string, i: nat) {
    i + |sep| <= |s| && s[i..i + |sep|] == sep
  }

  /** An occurrence after the first character is one in the tail. */
  lemma OccursShift(s: string, sep: string, i: nat)
    requires 1 <= i && s != []
    ensures OccursAt(s, sep, i) <==> OccursAt(s[1..], sep, i - 1)
  {
    if i + |sep| <= |s| {
      var a, b := s[i..i + |sep|], s[1..][i - 1..i - 1 + |sep|];
      forall k | 0 <= k < |sep| ensures a[k] == b[k] {
        assert a[k] == s[i + k] && b[k] == s[i + k];
      }
      assert a == b;
    }
  }

  /** `s.split(sep)[0]` for a non-empty `sep`. */
  function SplitFirst(s: string, sep: string): (r: string)
    requires sep != []
    ensures r <= s
    ensures forall i :: 0 <= i < |r| ==> !OccursAt(s, sep, i)
    ensures r == s || OccursAt(s, sep, |r|)
    decreases |s|
  {
    if |s| < |sep| then s
    else if s[..|sep|] == sep then []
    else
      var r := [s[0]] + SplitFirst(s[1..], sep);
      forall i | 1 <= i <= |r| ensures OccursAt(s, sep, i) <==> OccursAt(s[1..], sep, i - 1) {
        OccursShift(s, sep, i);
      }
      r
  }

  const AukletDir: string := ".auklet"

  /** `get_abs_path`: the absolute path (from `os.path.abspath`, a
      parameter) up to its first `.auklet`, or all of it when there is none.
      `split` always yields a first element, so the `IndexError` branch of
      the source cannot be taken and has no counterpart here. */
  function GetAbsPath(abspath: string -> string, path: string): (r: string)
    ensures r <= abspath(path)
    ensures forall i :: 0 <= i < |r| ==> !OccursAt(abspath(path), AukletDir, i)
    ensures r == abspath(path) || OccursAt(abspath(path), AukletDir, |r|)
  {
    SplitFirst(abspath(path), AukletDir)
  }

  // ---------------------------------------------------------------------
  // The node id in upper-case hexadecimal

  predicate IsHexDigit(c: char) {
    '0' <= c <= '9' || 'A' <= c <= 'F'
  }

  function HexDigit(d: nat): (c: char)
    requires d < 16
    ensures IsHexDigit(c)
  {
    if d < 10 then ('0' as int + d) as char else ('A' as int + d - 10) as char
  }

  function DigitValue(c: char): nat {
    if '0' <= c <= '9' then c as int - '0' as int
    else if 'A' <= c <= 'F' then c as int - 'A' as int + 10
    else 0
  }

  /** The upper-case hexadecimal digits of `n`, without leading zeros. */
  function Hex(n: nat): (h: string)
    ensures |h| >= 1
    ensures forall i :: 0 <= i < |h| ==> IsHexDigit(h[i])
    ensures n == 0 ==> h == "0"
    ensures n > 0 ==> h[0] != '0'
    decreases n
  {
    if n < 16 then [HexDigit(n)] else Hex(n / 16) + [HexDigit(n % 16)]
  }

  /** The number a string of hexadecimal digits denotes. */
  function HexValue(h: string): nat {
    if h == [] then 0 else HexValue(h[..|h| - 1]) * 16 + DigitValue(h[|h| - 1])
  }

  /** Reading the digits back gives the number: `Hex` loses nothing. */
  lemma {:induction false} HexRoundTrip(n: nat)
    ensures HexValue(Hex(n)) == n
    decreases n
  {
    if n < 16 {
      assert Hex(n)[..0] == [];
    } else {
      var h := Hex(n);
      assert h[..|h| - 1] == Hex(n / 16);
      assert h[|h| - 1] == HexDigit(n % 16);
      HexRoundTrip(n / 16);
    }
  }

  function Pow16(k: nat): nat {
    if k == 0 then 1 else 16 * Pow16(k - 1)
  }

  lemma {:induction false} HexLength(n: nat, k: nat)
    requires 1 <= k && n < Pow16(k)
    ensures |Hex(n)| <= k
    decreases k
  {
    if n >= 16 {
      assert k > 1 && Pow16(k) == 16 * Pow16(k - 1);
      assert n / 16 < Pow16(k - 1);
      HexLength(n / 16, k - 1);
    }
  }

  /** Node ids are 48-bit numbers. */
  const NodeLimit: nat := 0x1_0000_0000_0000

  /** A 48-bit node id has at most twelve hexadecimal digits. */
  lemma NodeHexLength(n: nat)
    requires n < NodeLimit
    ensures |Hex(n)| <= 12
  {
    assert Pow16(12) == NodeLimit;
    HexLength(n, 12);
  }

  // ---------------------------------------------------------------------
  // Two-character slices at even offsets below 11, joined with dashes

  /** Python's `s[i:j]` for non-negative bounds: clamped to the string. */
  function Slice(s: string, i: nat, j: nat): (r: string)
    ensures |r| <= 2 || j != i + 2
  {
    var lo := if i <= |s| then i else |s|;
    var hi := if j <= |s| then j else |s|;
    if lo <= hi then s[lo..hi] else []
  }

  /** The slices `s[i:i+2]` for `i` in `range(from, 11, 2)`. */
  function Pieces(s: string, from: nat): seq<string>
    decreases 11 - from
  {
    if from >= 11 then [] else [Slice(s, from, from + 2)] + Pieces(s, from + 2)
  }

  /** `sep.join(parts)` with '-' as the separator. */
  function JoinDash(parts: seq<string>): string {
    if parts == [] then ""
    else if |parts| == 1 then parts[0]
    else parts[0] + "-" + JoinDash(parts[1..])
  }

  /** The MAC string of a node id, before hashing: the six slices of two
      digits at offsets 0 to 10, joined by five dashes (a slice is short or
      empty when the id has fewer than twelve digits). With the dashes
      removed it is the first twelve hexadecimal digits of the id, in
      order: the short slices lose no digit. */
  function MacString(node: nat): (m: string)
    ensures var h := Hex(node);
      m == Slice(h, 0, 2) + "-" + Slice(h, 2, 4) + "-" + Slice(h, 4, 6) + "-"
        + Slice(h, 6, 8) + "-" + Slice(h, 8, 10) + "-" + Slice(h, 10, 12)
    ensures Undash(m) == Slice(Hex(node), 0, 12)
  {
    var h := Hex(node);
    ConcatPieces(h, 0);
    PiecesDashFree(h);
    UndashJoin(Pieces(h, 0));
    SixPieces(h);
    JoinDash(Pieces(h, 0))
  }

  /** `range(0, 11, 2)` gives the six offsets 0, 2, ..., 10. */
  lemma PiecesAreSix(h: string)
    ensures Pieces(h, 0) == [Slice(h, 0, 2), Slice(h, 2, 4), Slice(h, 4, 6), Slice(h, 6, 8), Slice(h, 8, 10), Slice(h, 10, 12)]
  {
    var t5 := Pieces(h, 10);
    assert t5 == [Slice(h, 10, 12)] by { assert Pieces(h, 12) == []; }
    var t4 := Pieces(h, 8);
    assert t4 == [Slice(h, 8, 10)] + t5;
    var t3 := Pieces(h, 6);
    assert t3 == [Slice(h, 6, 8)] + t4;
    var t2 := Pieces(h, 4);
    assert t2 == [Slice(h, 4, 6)] + t3;
    var t1 := Pieces(h, 2);
    assert t1 == [Slice(h, 2, 4)] + t2;
    assert Pieces(h, 0) == [Slice(h, 0, 2)] + t1;
  }

  /** Joining six parts puts a dash between each two. */
  lemma JoinSix(a: string, b: string, c: string, d: string, e: string, f: string)
    ensures JoinDash([a, b, c, d, e, f]) == a + "-" + b + "-" + c + "-" + d + "-" + e + "-" + f
  {
    var p := [a, b, c, d, e, f];
    assert p[1..] == [b, c, d, e, f] && p[2..] == [c, d, e, f] && p[3..] == [d, e, f];
    assert p[4..] == [e, f] && p[5..] == [f];
    assert JoinDash(p[4..]) == e + "-" + f;
    calc {
      JoinDash(p);
      a + "-" + JoinDash(p[1..]);
      a + "-" + (b + "-" + JoinDash(p[2..]));
      a + "-" + (b + "-" + (c + "-" + JoinDash(p[3..])));
      a + "-" + (b + "-" + (c + "-" + (d + "-" + JoinDash(p[4..]))));
      a + "-" + (b + "-" + (c + "-" + (d + "-" + (e + "-" + f))));
      a + "-" + b + "-" + c + "-" + d + "-" + e + "-" + f;
    }
  }

  /** `'-'.join` of the six slices. */
  lemma SixPieces(h: string)
    ensures JoinDash(Pieces(h, 0)) == Slice(h, 0, 2) + "-" + Slice(h, 2, 4) + "-" + Slice(h, 4, 6) + "-"
        + Slice(h, 6, 8) + "-" + Slice(h, 8, 10) + "-" + Slice(h, 10, 12)
  {
    PiecesAreSix(h);
    JoinSix(Slice(h, 0, 2), Slice(h, 2, 4), Slice(h, 4, 6), Slice(h, 6, 8), Slice(h, 8, 10), Slice(h, 10, 12));
  }

  // ---------------------------------------------------------------------
  // The dashes lose nothing

  function Undash(s: string): string {
    if s == [] then "" else (if s[0] == '-' then "" else [s[0]]) + Undash(s[1..])
  }

  function Concat(parts: seq<string>): string {
    if parts == [] then "" else parts[0] + Concat(parts[1..])
  }

  predicate DashFree(s: string) {
    forall i :: 0 <= i < |s| ==> s[i] != '-'
  }

  lemma {:induction false} UndashAppend(a: string, b: string)
    ensures Undash(a + b) == Undash(a) + Undash(b)
    decreases |a|
  {
    if a != [] {
      assert (a + b)[1..] == a[1..] + b;
      UndashAppend(a[1..], b);
    } else {
      assert a + b == b;
    }
  }

  lemma {:induction false} UndashDashFree(s: string)
    requires DashFree(s)
    ensures Undash(s) == s
    decreases |s|
  {
    if s != [] {
      UndashDashFree(s[1..]);
    }
  }

  /** Dropping the dashes from a join of dash-free parts gives the parts
      run together. */
  lemma {:induction false} UndashJoin(parts: seq<string>)
    requires forall k :: 0 <= k < |parts| ==> DashFree(parts[k])
    ensures Undash(JoinDash(parts)) == Concat(parts)
    decreases |parts|
  {
    if parts == [] {
    } else if |parts| == 1 {
      UndashDashFree(parts[0]);
      assert Concat(parts) == parts[0] + Concat([]);
    } else {
      UndashAppend(parts[0] + "-", JoinDash(parts[1..]));
      UndashAppend(parts[0], "-");
      UndashDashFree(parts[0]);
      UndashJoin(parts[1..]);
    }
  }

  /** Adjacent slices run together give the slice that spans both. */
  lemma SliceSplit(s: string, i: nat, j: nat, k: nat)
    requires i <= j <= k
    ensures Slice(s, i, j) + Slice(s, j, k) == Slice(s, i, k)
  {
    if k <= |s| {
      assert s[i..j] + s[j..k] == s[i..k];
    } else if j <= |s| {
      assert s[i..j] + s[j..|s|] == s[i..|s|];
    }
  }

  /** The slices from an even offset up to 12 run together give the string
      from that offset up to 12. */
  lemma {:induction false} ConcatPieces(s: string, from: nat)
    requires from <= 12 && from % 2 == 0
    ensures Concat(Pieces(s, from)) == Slice(s, from, 12)
    decreases 12 - from
  {
    if from < 12 {
      var rest := Pieces(s, from + 2);
      assert Pieces(s, from) == [Slice(s, from, from + 2)] + rest;
      assert ([Slice(s, from, from + 2)] + rest)[1..] == rest;
      ConcatPieces(s, from + 2);
      SliceSplit(s, from, from + 2, 12);
    }
  }

  /** Every slice of a string of hexadecimal digits is one too. */
  lemma SliceDigits(s: string, i: nat, j: nat)
    requires forall n :: 0 <= n < |s| ==> IsHexDigit(s[n])
    ensures DashFree(Slice(s, i, j))
  {
  }

  /** Each element of `Pieces(s, from)` is a slice of `s`. */
  lemma {:induction false} PiecesAreSlices(s: string, from: nat, k: nat)
    requires k < |Pieces(s, from)|
    ensures exists i: nat, j: nat :: Pieces(s, from)[k] == Slice(s, i, j)
    decreases k
  {
    if k == 0 {
      assert Pieces(s, from)[0] == Slice(s, from, from + 2);
    } else {
      PiecesAreSlices(s, from + 2, k - 1);
    }
  }

  /** The slices of a string of hexadecimal digits hold no dash. */
  lemma PiecesDashFree(h: string)
    requires forall n :: 0 <= n < |h| ==> IsHexDigit(h[n])
    ensures forall k :: 0 <= k < |Pieces(h, 0)| ==> DashFree(Pieces(h, 0)[k])
  {
    forall k | 0 <= k < |Pieces(h, 0)| ensures DashFree(Pieces(h, 0)[k]) {
      PiecesAreSlices(h, 0, k);
      var i: nat, j: nat :| Pieces(h, 0)[k] == Slice(h, i, j);
      SliceDigits(h, i, j);
    }
  }

  /** Two 48-bit node ids with the same MAC string are the same id, even
      though the slicing ignores where the dropped leading zeros were. */
  lemma MacStringInjective(a: nat, b: nat)
    requires a < NodeLimit && b < NodeLimit
    requires MacString(a) == MacString(b)
    ensures a == b
  {
    NodeHexLength(a);
    NodeHexLength(b);
    assert Slice(Hex(a), 0, 12) == Hex(a);
    assert Slice(Hex(b), 0, 12) == Hex(b);
    HexRoundTrip(a);
    HexRoundTrip(b);
  }
}

=== FILE: lifecycle.dfy ===
/**
 * The small runtime helpers of the agent: the start/stop life cycle of a
 * `Runnable` driven by a one-yield generator, the `deferral` context
 * manager that runs registered calls last-in first-out, and `frame_stack`,
 * which lists a call stack outermost first.
 */
module Lifecycle {
  import opened Wrappers

  // ---------------------------------------------------------------------
  // Runnable

  /** What one `yield` hands back: nothing (`yield`) or some value. */
  datatype Yielded = NoValue | Value(v: int)

  /** How the generator body ends after its last yield: by returning, or by
      raising (as the base `run()` does with `NotImplementedError`). */
  datatype Finish = Returns | Throws

  /** The generator `run()` returns, as the values still to come and how it
      ends after them. */
  datatype Gen = Gen(values: seq<Yielded>, finish: Finish)

  /** What `next(gen)` does: hand back a yield, raise `StopIteration`, or
      raise the body's own exception. */
  datatype Step = Yield(y: Yielded) | StopIteration | BodyException

  /** `next(gen)`: the step and the generator afterwards. A generator that
      has returned or raised raises `StopIteration` from then on. */
  function Next(g: Gen): (r: (Step, Gen))
    ensures g.values != [] ==> r == (Yield(g.values[0]), Gen(g.values[1..], g.finish))
    ensures g.values == [] ==> r.1 == Gen([], Returns)
    ensures g.values == [] ==> r.0 == (if g.finish == Returns then StopIteration else BodyException)
  {
    if g.values != [] then (Yield(g.values[0]), Gen(g.values[1..], g.finish))
    else if g.finish == Returns then (StopIteration, Gen([], Returns))
    else (BodyException, Gen([], Returns))
  }

  /** The errors `start` and `stop` raise: `RuntimeError` when already
      started or not started, `TypeError` when `run()` does not yield
      exactly once without a value, and the body's own exception. */
  datatype RunError = AlreadyStarted | NotStarted | NotCanonical | BodyRaised

  /** A `run()` as it must be written: one bare `yield`, then return. */
  predicate Canonical(g: Gen) {
    g.values == [NoValue] && g.finish == Returns
  }

  class Runnable {
    /** `_running`: None, or the generator `run()` returned. */
    var running: Option<Gen>

    constructor ()
      ensures running == None
    {
      running := None;
    }

    /** `is_running`. */
    predicate IsRunning(): (b: bool)
      reads this
      ensures b <==> running != None
    {
      running.Some?
    }

    /** `start`: `_running` is set before the generator is advanced, so an
        instance whose `run()` fails the one-yield rule stays running. */
    method Start(run: Gen) returns (err: Option<RunError>)
      modifies this
      ensures old(IsRunning()) ==> err == Some(AlreadyStarted) && running == old(running)
      ensures !old(IsRunning()) ==> running == Some(Next(run).1)
      ensures !old(IsRunning()) ==> (err == None <==> run.values != [] && run.values[0] == NoValue)
      ensures !old(IsRunning()) && run.values != [] && run.values[0] != NoValue ==> err == Some(NotCanonical)
      ensures !old(IsRunning()) && run.values == [] ==>
        err == Some(if run.finish == Returns then NotCanonical else BodyRaised)
    {
      if running.Some? {
        return Some(AlreadyStarted);
      }
      var step, rest := Next(run).0, Next(run).1;
      running := Some(rest);
      match step {
        case StopIteration => err := Some(NotCanonical);
        case BodyException => err := Some(BodyRaised);
        case Yield(y) => err := if y == NoValue then None else Some(NotCanonical);
      }
    }

    /** `stop`: `_running` is cleared before the generator is advanced, so
        the instance is never left running. */
    method Stop() returns (err: Option<RunError>)
      modifies this
      ensures running == None
      ensures !old(IsRunning()) ==> err == Some(NotStarted)
      ensures old(IsRunning()) ==>
        (err == None <==> old(running).value.values == [] && old(running).value.finish == Returns)
      ensures old(IsRunning()) && old(running).value.values != [] ==> err == Some(NotCanonical)
      ensures old(IsRunning()) && old(running).value.values == [] && old(running).value.finish == Throws ==>
        err == Some(BodyRaised)
    {
      if running.None? {
        return Some(NotStarted);
      }
      var gen := running.value;
      running := None;
      match Next(gen).0 {
        case StopIteration => err := None;
        case BodyException => err := Some(BodyRaised);
        case Yield(_) => err := Some(NotCanonical);
      }
    }
  }

  /** The first advance of `run()` yields without a value, so `start`
      returns normally. */
  predicate StartsCleanly(g: Gen) {
    g.values != [] && g.values[0] == NoValue
  }

  /** `with runnable: <body>` on a fresh instance, where the body returns
      or raises (`bodyRaises`). `__enter__` starts the instance; when it
      raises, neither the body nor `__exit__` runs and the instance stays
      running. Otherwise `__exit__` stops the instance after the body
      whether the body raised or not; an error from `stop` replaces the
      body's exception, and when `stop` succeeds the body's exception (if
      any) leaves the block (`bodyEscapes`). */
  method WithRunnable(run: Gen, bodyRaises: bool)
    returns (err: Option<RunError>, bodyEscapes: bool, leftRunning: bool)
    ensures err == None <==> Canonical(run)
    ensures !StartsCleanly(run) ==>
      err == Some(if run.values == [] && run.finish == Throws then BodyRaised else NotCanonical)
    ensures StartsCleanly(run) && !Canonical(run) ==>
      err == Some(if |run.values| > 1 then NotCanonical else BodyRaised)
    ensures bodyEscapes <==> Canonical(run) && bodyRaises
    ensures leftRunning <==> !StartsCleanly(run)
  {
    var r := new Runnable();
    err := r.Start(run);
    bodyEscapes := false;
    if err == None {
      err := r.Stop();
      bodyEscapes := bodyRaises && err == None;
    }
    leftRunning := r.IsRunning();
  }

  // ---------------------------------------------------------------------
  // deferral

  /** A deferred `func(*args, **kwargs)`, and whether calling it raises. */
  datatype Call = Call(name: string, raises: bool)

  /** `s` back to front. */
  function Reverse<T>(s: seq<T>): (r: seq<T>)
    ensures |r| == |s|
    ensures forall i :: 0 <= i < |s| ==> r[i] == s[|s| - 1 - i]
  {
    if s == [] then [] else [s[|s| - 1]] + Reverse(s[..|s| - 1])
  }

  /** The `finally` of `deferral`: pop and call the registered calls until
      none is left or one raises. The calls made are the registered ones in
      reverse order of registration, up to and including the first that
      raises. */
  method RunDeferred(deferred: seq<Call>) returns (ran: seq<Call>, raised: bool)
    ensures ran <= Reverse(deferred)
    ensures forall i :: 0 <= i < |ran| - 1 ==> !ran[i].raises
    ensures raised <==> ran != [] && ran[|ran| - 1].raises
    ensures !raised ==> ran == Reverse(deferred)
  {
    var pending := deferred;
    ran, raised := [], false;
    while pending != []
      invariant Reverse(deferred) == ran + Reverse(pending)
      invariant forall i :: 0 <= i < |ran| ==> !ran[i].raises
      decreases |pending|
    {
      var call := pending[|pending| - 1];
      assert Reverse(pending) == [call] + Reverse(pending[..|pending| - 1]);
      pending := pending[..|pending| - 1];
      ran := ran + [call];
      if call.raises {
        raised := true;
        return;
      }
    }
  }

  /** How a `with deferral() as defer:` block ends. */
  datatype Exit = Normal | BodyError | DeferredError

  /** A `with deferral() as defer:` block whose body registered `registered`
      and then returned or raised: the deferred calls run in reverse order
      either way; an exception from a deferred call replaces the body's. */
  method WithDeferral(registered: seq<Call>, bodyRaises: bool) returns (ran: seq<Call>, exit: Exit)
    ensures ran <= Reverse(registered)
    ensures forall i :: 0 <= i < |ran| - 1 ==> !ran[i].raises
    ensures exit == DeferredError ==> ran != [] && ran[|ran| - 1].raises
    ensures (forall i :: 0 <= i < |registered| ==> !registered[i].raises) ==> ran == Reverse(registered)
    ensures exit == DeferredError <==> exists i :: 0 <= i < |registered| && registered[i].raises
    ensures exit == BodyError <==> bodyRaises && forall i :: 0 <= i < |registered| ==> !registered[i].raises
  {
    var raised;
    ran, raised := RunDeferred(registered);
    ghost var rev := Reverse(registered);
    if raised {
      var k := |ran| - 1;
      assert rev[k] == registered[|registered| - 1 - k];
      exit := DeferredError;
    } else {
      assert forall i :: 0 <= i < |registered| ==> registered[i] == rev[|registered| - 1 - i];
      exit := if bodyRaises then BodyError else Normal;
    }
  }

  // ---------------------------------------------------------------------
  // frame_stack

  /** A Python frame object and its caller `f_back`. */
  class Frame {
    const code: string
    const back: Frame?
    /** How many callers lie behind this frame; the chain is finite. */
    ghost const depth: nat

    ghost predicate Valid()
      decreases depth
    {
      back != null ==> back.depth < depth && back.Valid()
    }

    constructor (code: string, back: Frame?)
      requires back != null ==> back.Valid()
      ensures this.code == code && this.back == back && Valid()
    {
      this.code := code;
      this.back := back;
      this.depth := if back == null then 0 else back.depth + 1;
    }
  }

  /** `frame_stack`: the frames from the outermost caller to `frame`, each
      preceded by its caller. */
  method FrameStack(frame: Frame?) returns (frames: seq<Frame>)
    requires frame != null ==> frame.Valid()
    ensures frames == [] <==> frame == null
    ensures frames != [] ==> frames[|frames| - 1] == frame && frames[0].back == null
    ensures forall i :: 0 < i < |frames| ==> frames[i].back == frames[i - 1]
  {
    frames := [];
    var f := frame;
    while f != null
      invariant f != null ==> f.Valid()
      invariant frames == [] ==> f == frame
      invariant frames != [] ==> frames[|frames| - 1] == frame && frames[0].back == f
      invariant forall i :: 0 < i < |frames| ==> frames[i].back == frames[i - 1]
      decreases if f == null then 0 else f.depth + 1
    {
      frames := [f] + frames;
      f := f.back;
    }
  }
}

=== FILE: lines.dfy ===
/**
 * Text lines as the spool file sees them: the characters Python 3's
 * `str.splitlines()` treats as line boundaries, the split itself, the
 * inverse used when records are appended one line at a time, and the
 * position-based cut performed by `truncate()`.
 */
module Lines {

  /** The boundaries of `str.splitlines()`: LF, CR, VT, FF, the separators
      0x1C to 0x1E, NEL, U+2028 and U+2029 (CR LF counts as one boundary). */
  predicate IsLineBreak(c: char) {
    c == '\n' || c == '\r' || c == '\U{0B}' || c == '\U{0C}' ||
    c == '\U{1C}' || c == '\U{1D}' || c == '\U{1E}' || c == '\U{85}' ||
    c == '\U{2028}' || c == '\U{2029}'
  }

  /** A string with no line boundary in it: one line of the spool. */
  predicate LineFree(s: string) {
    forall i :: 0 <= i < |s| ==> !IsLineBreak(s[i])
  }

  predicate AllLineFree(ls: seq<string>) {
    forall i :: 0 <= i < |ls| ==> LineFree(ls[i])
  }

  /** Length of the first line of `s`: the index of its first boundary. */
  function LineEnd(s: string): (n: nat)
    ensures n <= |s|
    ensures forall i :: 0 <= i < n ==> !IsLineBreak(s[i])
    ensures n < |s| ==> IsLineBreak(s[n])
  {
    if s == [] || IsLineBreak(s[0]) then 0 else 1 + LineEnd(s[1..])
  }

  /** `s.splitlines()`: the lines of `s` without their terminators; a
      final line needs no terminator and an empty string has no lines. */
  function SplitLines(s: string): (ls: seq<string>)
    ensures AllLineFree(ls)
    ensures s == [] <==> ls == []
    decreases |s|
  {
    if s == [] then []
    else
      var n := LineEnd(s);
      if n == |s| then [s]
      else if s[n] == '\r' && n + 1 < |s| && s[n + 1] == '\n' then
        [s[..n]] + SplitLines(s[n + 2..])
      else
        [s[..n]] + SplitLines(s[n + 1..])
  }

  /** The file that results from writing every line followed by "\n". */
  function JoinLines(ls: seq<string>): string {
    if ls == [] then "" else ls[0] + "\n" + JoinLines(ls[1..])
  }

  /** `truncate(p)` on a file holding `s`: cut at position `p`, or extend
      with NUL characters when the file is shorter than `p`. Positions
      count characters here and bytes in Python; the spool is only ever cut
      at the end of the text just read, where the two agree. */
  function Truncate(s: string, p: nat): (r: string)
    ensures |r| == p
    ensures p <= |s| ==> r <= s
    ensures p >= |s| ==> s <= r && forall i :: |s| <= i < p ==> r[i] == '\0'
  {
    if p <= |s| then s[..p] else s + seq(p - |s|, _ => '\0')
  }

  /** Writing two runs of lines one after the other. */
  lemma {:induction false} JoinConcat(ls: seq<string>, ms: seq<string>)
    ensures JoinLines(ls + ms) == JoinLines(ls) + JoinLines(ms)
  {
    if ls == [] {
      assert ls + ms == ms;
    } else {
      assert (ls + ms)[1..] == ls[1..] + ms;
      JoinConcat(ls[1..], ms);
    }
  }

  lemma AllLineFreeConcat(ls: seq<string>, ms: seq<string>)
    requires AllLineFree(ls) && AllLineFree(ms)
    ensures AllLineFree(ls + ms)
  {
    forall i | 0 <= i < |ls + ms| ensures LineFree((ls + ms)[i]) {
      if i < |ls| { assert (ls + ms)[i] == ls[i]; } else { assert (ls + ms)[i] == ms[i - |ls|]; }
    }
  }

  /** The first line of `l + "\n" + rest` is `l` when `l` has no boundary. */
  lemma LineEndOfLine(l: string, rest: string)
    requires LineFree(l)
    ensures LineEnd(l + "\n" + rest) == |l|
  {
    var s := l + "\n" + rest;
    assert s[|l|] == '\n';
    assert forall i :: 0 <= i < |l| ==> s[i] == l[i];
  }

  /** Splitting a file written line by line gives back exactly the lines
      written, oldest first, provided none contains a boundary. */
  lemma {:induction false} SplitJoin(ls: seq<string>)
    requires AllLineFree(ls)
    ensures SplitLines(JoinLines(ls)) == ls
  {
    if ls != [] {
      var l, rest := ls[0], JoinLines(ls[1..]);
      var s := l + "\n" + rest;
      assert JoinLines(ls) == s;
      assert LineFree(l);
      LineEndOfLine(l, rest);
      assert s[..|l|] == l;
      assert s[|l|] == '\n';
      assert s[|l| + 1..] == rest;
      assert AllLineFree(ls[1..]) by {
        forall i | 0 <= i < |ls[1..]| ensures LineFree(ls[1..][i]) {
          assert ls[1..][i] == ls[i + 1];
        }
      }
      SplitJoin(ls[1..]);
    }
  }

  /** Appending one line to a file of whole lines adds exactly that line at
      the end when read back; every earlier line is unchanged. */
  lemma AppendReadsBack(ls: seq<string>, l: string)
    requires AllLineFree(ls) && LineFree(l)
    ensures SplitLines(JoinLines(ls) + l + "\n") == ls + [l]
  {
    var j := JoinLines(ls + [l]);
    assert j == JoinLines(ls) + l + "\n" by {
      assert JoinLines([l]) == l + "\n" by {
        assert [l][1..] == [];
      }
      JoinConcat(ls, [l]);
    }
    assert AllLineFree(ls + [l]) by {
      assert AllLineFree([l]);
      AllLineFreeConcat(ls, [l]);
    }
    SplitJoin(ls + [l]);
  }
}

=== FILE: records.dfy ===
/**
 * Telemetry records as the agent handles them: JSON-like values, a record
 * as a mapping from keys to values, and the text codec (`json.dumps` and
 * `json.loads`) that the spool uses, kept abstract.
 */
module Records {
  import opened Lines
  import opened Wrappers

  /** A JSON value. */
  datatype Json =
    | JNull
    | JBool(b: bool)
    | JNum(n: int)
    | JStr(s: string)
    | JArr(items: seq<Json>)
    | JObj(fields: map<string, Json>)

  /** One telemetry item: a JSON object (a Python dict). */
  type Record = map<string, Json>

  /** The text form of a record on one spool line and its reading back.
      `parse` answers None for a line that is not JSON or is JSON but not
      an object (where `json.loads` raises, or `.keys()` does). */
  datatype Codec = Codec(serialise: Record -> string, parse: string -> Option<Record>)

  /** What the agent relies on from `json.dumps`/`json.loads`: a serialised
      record holds no line boundary (the default dumps escapes every control
      and non-ASCII character), and parsing it gives the record back. */
  ghost predicate Lawful(c: Codec) {
    forall r: Record :: LineFree(c.serialise(r)) && c.parse(c.serialise(r)) == Some(r)
  }

  /** The serialisations of `recs`, in order. */
  function Serialised(c: Codec, recs: seq<Record>): (ls: seq<string>)
    ensures |ls| == |recs|
    ensures forall i :: 0 <= i < |recs| ==> ls[i] == c.serialise(recs[i])
  {
    if recs == [] then [] else [c.serialise(recs[0])] + Serialised(c, recs[1..])
  }

  predicate AllParse(c: Codec, lines: seq<string>) {
    forall i :: 0 <= i < |lines| ==> c.parse(lines[i]).Some?
  }

  /** The records that `lines` parse to, in order. */
  function Parsed(c: Codec, lines: seq<string>): (recs: seq<Record>)
    requires AllParse(c, lines)
    ensures |recs| == |lines|
    ensures forall i :: 0 <= i < |lines| ==> Some(recs[i]) == c.parse(lines[i])
  {
    if lines == [] then [] else [c.parse(lines[0]).value] + Parsed(c, lines[1..])
  }

  /** Under a lawful codec, records written to the spool and read back are
      the records written, in the order written. */
  lemma SpooledRecordsReadBack(c: Codec, recs: seq<Record>)
    requires Lawful(c)
    ensures AllLineFree(Serialised(c, recs))
    ensures SplitLines(JoinLines(Serialised(c, recs))) == Serialised(c, recs)
    ensures AllParse(c, Serialised(c, recs))
    ensures Parsed(c, Serialised(c, recs)) == recs
  {
    var ls := Serialised(c, recs);
    SplitJoin(ls);
    var ps := Parsed(c, ls);
    assert forall i :: 0 <= i < |recs| ==> Some(ps[i]) == c.parse(c.serialise(recs[i]));
  }
}

=== FILE: wrappers.dfy ===
/** A value that may be absent: Python's `None` or a value. */
module Wrappers {
  datatype Option<T> = None | Some(value: T)
}
